=== FILE: README.md ===
# Post navigator and post store of a local-first demo app

This project models, in Dafny, the logic that the `App` component of a small
local-first demo application adds on top of its embedded database and query
cache:

- **The navigator.** `App` keeps a selected position, `selectedPostIndex`,
  into the list of posts that the `posts` query last delivered. The list is
  absent until the first result arrives. `j`/ArrowDown and `k`/ArrowUp move
  the selection one step and stop at either end. A click on a list entry
  selects that entry's position. A reset effect sends the index back to 0
  when a new non-empty list has become too short for it. This is module
  `Navigator`, over a `State` of an optional post list and an integer index.
- **The prefetch window.** From the index, `App` looks up the selected,
  previous and next posts by JavaScript array indexing. It keys one
  `post_data` detail query per post as `["post_data", id]` and enables each
  query only when its post exists. This is module `Prefetch`.
- **The store operations.** `createPost` stores a post whose title and
  content are trimmed, with defaults for blank fields, and clears the form.
  `createPostData` inserts a fixed batch of eight typed attribute rows.
  `deletePost` removes a post's attribute rows and then the post. These are
  modelled in module `PostStore` over an abstract `Store` holding the `post`
  and `post_data` tables as sequences of rows (module `Schema`).

Supporting modules:

- `Text` models JavaScript's `String.prototype.trim` and the decimal
  `toString` of non-negative integers.
- `Seqs` gives the order-preserving filter behind every `where` clause.
- `Wrappers` gives the `Option` type.

Parameters stand in for the nondeterministic inputs:

- the post id and the eight attribute row ids, which come from
  `crypto.randomUUID()`;
- the timestamp, which comes from `new Date().toISOString()`;
- three reals in [0, 1), which come from `Math.random()` (`Draws`).

Two behaviours of the code are worth stating plainly:

- A click sets the index to the clicked position with no range check
  (src/routes/index.tsx:418). The handler only exists for rendered entries,
  so `Click` takes any position; its contract states that the index becomes
  that position, and that the selection invariant holds afterwards exactly
  when the position is a rendered one.
- An empty snapshot leaves the index where it was, and a later non-empty
  list keeps it while it is in range (`Navigator.EmptyListKeepsIndex`): an
  index of 3 survives an empty list followed by a list of five posts.

## Model

| member | source | states |
|---|---|---|
| Navigator.Init | src/routes/index.tsx:14 | A freshly mounted `App` has no list yet (the query's data is undefined) and index 0, which satisfies the selection invariant |
| Navigator.Lookup | src/routes/index.tsx:29-31 | `posts?.[i]` yields a post exactly when the list is present and `0 <= i < len`, and that post is `posts[i]`; negative and too-large positions are undefined |
| Navigator.Selected | src/routes/index.tsx:29 | The selected post exists exactly when the list is present and the index is one of its positions, and it is the post at the index; under the selection invariant it exists exactly when the list is non-empty |
| Navigator.KeyMove | src/routes/index.tsx:75-96 | `j` and ArrowDown, and only they, move forward; `k` and ArrowUp, and only they, move back; every other key is unbound |
| Navigator.Step | src/routes/index.tsx:78-94 | Forward increments exactly when `index < len - 1` and is a no-op at or past the last position; backward decrements exactly when `index > 0`; both keep an in-range index in range |
| Navigator.HandleKey | src/routes/index.tsx:72-96 | A key never changes the list and moves the index by at most one; with no list, an empty list or an unbound key nothing changes; the index rises exactly on `j`/ArrowDown below the last position and falls exactly on `k`/ArrowUp above 0; the selection invariant is preserved |
| Navigator.HandleKeysValid | src/routes/index.tsx:72-96 | Any sequence of key presses keeps the list, and with N posts the index stays in [0, N-1] at every step |
| Navigator.ForwardRepeated | src/routes/index.tsx:76-81 | n presses of `j` from a valid position land on min(index + n, N - 1), so the last position is a fixed point |
| Navigator.BackwardRepeated | src/routes/index.tsx:82-85 | n presses of `k` from a valid position land on max(index - n, 0), so position 0 is a fixed point |
| Navigator.UnboundKeysIgnored | src/routes/index.tsx:75-96 | Any sequence of keys that are not bound to a move leaves the state unchanged |
| Navigator.StepsAreInverse | src/routes/index.tsx:86-95 | Away from the edges, a forward step followed by a backward step (or the reverse) returns to the same state |
| Navigator.Click | src/routes/index.tsx:414-418 | A click keeps the list and sets the index to the clicked position; the result satisfies the selection invariant exactly when the position is one of the rendered entries, and then the selected post is the clicked entry |
| Navigator.UpdateList | src/routes/index.tsx:104-108 | The new list replaces the old. An absent or empty list leaves the index alone. On a non-empty list the index is kept exactly when it is still a position; otherwise it becomes 0. Any non-negative index ends up satisfying the selection invariant |
| Navigator.UpdateListIdempotent | src/routes/index.tsx:104-108 | Delivering the same list twice gives the same state as delivering it once |
| Navigator.ShrinkResetsToFirst | src/routes/index.tsx:104-108 | [A, B, C, D] with D selected, updated to [A, B], selects position 0, that is A |
| Navigator.EmptyListKeepsIndex | src/routes/index.tsx:104-108 | An empty snapshot selects nothing but keeps index 3, and a following list of five posts keeps index 3 instead of resetting it |
| Prefetch.QueryFor | src/routes/index.tsx:39-44 | A detail query is enabled exactly when its post exists; it is keyed `["post_data", id]` for a present post and `["post_data", ""]` otherwise |
| Prefetch.PrefetchWindow | src/routes/index.tsx:29-68 | The selected, previous and next queries are enabled exactly when positions index, index - 1 and index + 1 exist; each enabled query filters by that post's id; with no posts, none is enabled |
| Prefetch.WindowTargets | src/routes/index.tsx:29-68 | Under the selection invariant, the ids with an enabled query are exactly the ids at the existing positions among index - 1, index and index + 1 |
| Prefetch.WindowSize | src/routes/index.tsx:29-68 | The number of enabled queries is 0 without posts, 1 for a single post, 2 at either end of a longer list, and 3 in its interior |
| Prefetch.WindowKeysDistinct | src/routes/index.tsx:39-66 | With unique post ids, the enabled queries have pairwise distinct cache keys |
| Prefetch.WalkForwardThroughThree | src/routes/index.tsx:29-91 | On [A, B, C] from A, one `j` selects B and prefetches {A, B, C}; a second selects C and prefetches {B, C}; a third changes nothing |
| Prefetch.FetchDetail | src/routes/index.tsx:39-46 | A disabled query returns nothing; an enabled one returns exactly the `post_data` rows whose `post_id` is the query's id, each as many times as it is stored |
| Prefetch.CreatedPostDetail | src/routes/index.tsx:125-187 | Clicking a post just created under a fresh id runs its detail query, which returns exactly the eight rows created with it, in storage order (see "## Left out") |
| Text.TrimStart | src/routes/index.tsx:169-170 | The result is a suffix of the input, the dropped prefix is all whitespace, and the result does not start with whitespace |
| Text.TrimEnd | src/routes/index.tsx:169-170 | The result is a prefix of the input, the dropped suffix is all whitespace, and the result does not end with whitespace |
| Text.Trim | src/routes/index.tsx:169-170 | `trim()` returns a middle slice of the input with only whitespace and line terminators cut from either end; it has none at either end itself; it is empty exactly when the input is all whitespace |
| Text.TrimIdempotent | src/routes/index.tsx:169-170 | Trimming a trimmed string changes nothing |
| Text.NatToDecimal | src/routes/index.tsx:136 | `toString()` on a non-negative integer is a canonical decimal numeral (digits, no leading zero) whose value is that integer |
| Seqs.Filter | src/routes/index.tsx:191 | A `where` filter keeps exactly the rows that pass, with their multiplicity, and drops every row that fails |
| Seqs.FilterAppend | src/routes/index.tsx:191 | Filtering a table that grew by appending rows filters the old part and then the new part |
| PostStore.Views | src/routes/index.tsx:136 | `Math.floor(Math.random() * 1000)`: the greatest integer not above 1000 times the draw, hence a view count below 1000 |
| PostStore.Priority | src/routes/index.tsx:146 | `Math.floor(Math.random() * 5 + 1)`: the greatest integer not above 5 times the draw plus 1, hence a priority from 1 to 5 |
| PostStore.Featured | src/routes/index.tsx:152 | The featured flag is "true" exactly when the draw exceeds 0.5, and otherwise "false" |
| PostStore.Resolve | src/routes/index.tsx:169-170 | A blank field stores its default; otherwise it stores a non-empty slice of the input with whitespace cut from both ends and none left at either end |
| PostStore.ResolvedFieldsTrimmed | src/routes/index.tsx:169-170 | The stored title and content are never empty and never padded with whitespace, whether typed or defaulted |
| PostStore.CreatePostData | src/routes/index.tsx:125-166 | Exactly eight rows: the i-th has id `rowIds[i]`, the given post id, the i-th key of author, created_at, status, views, tags, priority, category, featured and its fixed type tag, and each value matches its tag. The values are "Admin User", the timestamp, "published", the decimal numeral of the views draw, `["web","tech","tutorial"]`, the decimal numeral of the priority draw, "Technology", and "true" exactly when the featured draw exceeds 0.5 |
| PostStore.InsertPost | src/routes/index.tsx:173-180 | Inserting a post appends it and leaves `post_data` alone, so no attribute row becomes orphaned |
| PostStore.InsertData | src/routes/index.tsx:165 | Inserting a batch appends it to `post_data`; from a well-linked store, the result is well linked exactly when every new row's post exists |
| PostStore.CreatePost | src/routes/index.tsx:168-187 | Appends one post with the given id and the resolved title and content, then appends that post's attribute batch, and clears both form fields |
| PostStore.InsertPostThenDataKeepsLinks | src/routes/index.tsx:173-183 | Inserting the post before its attribute rows keeps the store well linked after each of the two steps |
| PostStore.CreatePostKeepsLinks | src/routes/index.tsx:168-187 | `createPost` keeps every attribute row attached to an existing post |
| PostStore.DeletePostData | src/routes/index.tsx:191 | Leaves the posts alone, removes every attribute row of the id, keeps every other row with its multiplicity, and cannot orphan a row |
| PostStore.DeletePostRow | src/routes/index.tsx:193 | Leaves `post_data` alone, removes every post with the id, and keeps every other post with its multiplicity |
| PostStore.DeletePost | src/routes/index.tsx:189-194 | Afterwards no post has the id and no attribute row refers to it; every other post and attribute row survives with its multiplicity |
| PostStore.DeletePostKeepsLinks | src/routes/index.tsx:189-194 | Both the intermediate store (attribute rows gone, post still present) and the final store are well linked when the initial one is |
| PostStore.PostFirstOrphansData | src/routes/index.tsx:190-193 | Deleting the post before its attribute rows would leave orphaned rows, which is why the rows go first |
| PostStore.DeletePostIdempotent | src/routes/index.tsx:189-194 | Deleting the same post twice is the same as deleting it once |
| PostStore.FilterDataUndoesAppend | src/routes/index.tsx:191 | Removing the rows of an id from a table that only gained rows of that id restores the table |
| PostStore.FilterPostUndoesAppend | src/routes/index.tsx:193 | Removing a post id from a table that only gained that post restores the table |
| PostStore.FilterDataFindsAppended | src/routes/index.tsx:40-43 | Selecting the rows of a fresh id after appending its rows yields exactly those rows |
| PostStore.DeleteUndoesInsert | src/routes/index.tsx:173-194 | Deleting a post appended with its rows under a fresh id restores both tables |
| PostStore.DeleteUndoesCreate | src/routes/index.tsx:168-194 | `deletePost` undoes `createPost` for an id that no row used before |

## Left out

- Rendering, CSS, loading and status labels, and skeletons are presentation only.
- Auto-scrolling the selected entry into view is a DOM side effect.
- Attaching and detaching the global `keydown` listener, and React's effect
  and render scheduling, are not modelled. A key press, a click and a list
  update are each one atomic transition. The list update replaces the list
  and runs the reset rule together. The transient render between a new list
  and its reset effect is not modelled; `PrefetchWindow` still describes it
  for any index.
- The query cache is not modelled: de-duplication, the 5-minute `staleTime`
  freshness window, and the loading, fetching and error flags. Only each
  query's key, its enabled flag and the rows it selects are modelled.
- The embedded database, the sync layer, the schema declaration and
  `disconnectAndClear` (the "delete DB" button) are external libraries.
  The two tables shape `Schema`: `post` with its implicit `id` and its
  `title` and `content` columns, `post_data` with its implicit `id` and its
  four declared columns.
- `createRandomPost` and `seedRandomPosts` are not modelled. Both pick
  titles and contents at random and store them untrimmed. `createRandomPost`
  inserts one post and its attribute batch and leaves the form alone.
  `seedRandomPosts` inserts all 50 posts in one batch and only then their
  attribute batches, one post at a time (src/routes/index.tsx:270-275).
- `PostStore.Views`, `PostStore.Priority`, `PostStore.Featured`: `Math.random()`
  returns an IEEE double; the model uses exact reals in [0, 1), so rounding of
  `r * 1000` and `r * 5 + 1` is not modelled.
- `Navigator.State`: the index is an unbounded integer. JavaScript numbers lose
  integer precision above 2^53, which the index cannot reach here.
- `Text.Trim`: JavaScript strings are UTF-16 code units, and the model uses
  Unicode scalar values. Every character `trim` removes is in the Basic
  Multilingual Plane, so the results agree.
- Query errors are not modelled. Only the `posts` query's error is shown, as
  a status label (src/routes/index.tsx:300-301). The detail queries never read
  their error: when the selected post's detail fetch fails, its data stays
  undefined and the panel shows "[NO DATA FOUND]" (src/routes/index.tsx:505-508),
  which looks the same as a post with no attribute rows.
- The `created_at` value is passed in as text; its ISO-8601 shape is not checked.
- `Navigator.HandleKey`: every bound key also calls `e.preventDefault()`
  (src/routes/index.tsx:77, 83, 87, 93), and the listener sits on `window`
  without checking the event target (src/routes/index.tsx:99). So `j`, `k`,
  ArrowUp and ArrowDown typed into the title input or the content textarea
  never reach the field and move the selection instead. The model has no
  form focus or key delivery, so it does not show this.
- `PostStore.CreatePost`: modelled as one step that cannot fail. The code
  awaits two separate inserts (src/routes/index.tsx:173-183) and clears the
  form only after both (src/routes/index.tsx:185-186). If the attribute insert
  is rejected, the post stays without attribute rows and the form is not
  cleared. Other events, such as a delete or a list update, can also run
  between the awaits. `PostStore.CreatePostKeepsLinks`,
  `PostStore.DeleteUndoesCreate` and `Prefetch.CreatedPostDetail` rely on
  this atomicity.
- `PostStore.DeletePost`: modelled as one step that cannot fail. The code
  awaits two separate deletes (src/routes/index.tsx:191-193). If the second
  is rejected, the post stays without its attribute rows. Other events can
  also run between the two. `PostStore.DeletePostKeepsLinks` does cover the
  state between the two deletes.
- `Prefetch.CreatedPostDetail`, `Prefetch.FetchDetail`: both tables are
  sequences in insertion order, and every query returns rows in that order.
  Neither the posts query (src/routes/index.tsx:26) nor the detail queries
  (src/routes/index.tsx:40-43, 51-54, 62-65) has an ORDER BY, so SQL
  promises no order. SQLite's plain table scan happens to return rowid
  order, but nothing in the code asks for it. `CreatedPostDetail` further
  assumes the refreshed post list is the old list with the new post last, so
  that clicking position `|store.posts|` selects it. Its "in order" part
  relies on `Seqs.Filter` keeping storage order.

=== FILE: navigator.dfy ===
/** The keyboard- and click-driven selection over the post list that `App`
    keeps in `selectedPostIndex`, with the list snapshot the index refers to.
    React state updates, effect scheduling and the global `keydown` listener
    are collapsed into pure transitions on a `State`. */
module Navigator {
  import opened Wrappers
  import opened Schema

  /** The post list as the `posts` query last delivered it (None while the
      query has produced no data) and the selected position. */
  datatype State = State(posts: Option<seq<Post>>, index: int)

  /** The two directions a key can move the selection. */
  datatype Move = Forward | Backward

  /** The list is present and has at least one post. */
  predicate HasList(s: State) {
    s.posts.Some? && |s.posts.value| > 0
  }

  /** The selection invariant: the index is never negative, and it is a
      position of the list whenever the list has posts. */
  predicate Valid(s: State) {
    && s.index >= 0
    && (HasList(s) ==> s.index < |s.posts.value|)
  }

  /** The state of a freshly mounted `App`: no data yet, index 0. */
  function Init(): (s: State)
    ensures s.posts.None? && s.index == 0
    ensures Valid(s) && !HasList(s)
  {
    State(None, 0)
  }

  /** JavaScript's `posts?.[i]`: undefined when the list is absent or `i`
      is not one of its positions (negative positions included). */
  function Lookup(posts: Option<seq<Post>>, i: int): (r: Option<Post>)
    ensures r.Some? <==> posts.Some? && 0 <= i < |posts.value|
    ensures r.Some? ==> r.value == posts.value[i]
  {
    if posts.Some? && 0 <= i < |posts.value| then Some(posts.value[i]) else None
  }

  /** The selected post, `posts?.[selectedPostIndex]`. */
  function Selected(s: State): (r: Option<Post>)
    ensures r.Some? <==> s.posts.Some? && 0 <= s.index < |s.posts.value|
    ensures r.Some? ==> r.value == s.posts.value[s.index]
    ensures Valid(s) ==> (r.Some? <==> HasList(s))
  {
    Lookup(s.posts, s.index)
  }

  /** The move a key is bound to: `j` and ArrowDown go forward, `k` and
      ArrowUp go back, and every other key is unbound. */
  function KeyMove(key: string): (m: Option<Move>)
    ensures m == Some(Forward) <==> key == "j" || key == "ArrowDown"
    ensures m == Some(Backward) <==> key == "k" || key == "ArrowUp"
  {
    if key == "j" || key == "ArrowDown" then Some(Forward)
    else if key == "k" || key == "ArrowUp" then Some(Backward)
    else None
  }

  /** The functional state update a move passes to `setSelectedPostIndex`
      on a list of `len` posts: one step, clamped at either end. */
  function Step(index: int, len: nat, m: Move): (r: int)
    ensures m == Forward ==> (r == index + 1 <==> index < len - 1)
    ensures m == Forward && index >= len - 1 ==> r == index
    ensures m == Backward ==> (r == index - 1 <==> index > 0)
    ensures m == Backward && index <= 0 ==> r == index
    ensures 0 <= index < len ==> 0 <= r < len
  {
    match m
    case Forward => if index < len - 1 then index + 1 else index
    case Backward => if index > 0 then index - 1 else index
  }

  /** The `keydown` handler: ignored while the list is absent or empty and
      for unbound keys, otherwise one clamped step. */
  function HandleKey(s: State, key: string): (r: State)
    ensures r.posts == s.posts
    ensures !HasList(s) || KeyMove(key).None? ==> r == s
    ensures -1 <= r.index - s.index <= 1
    ensures r.index > s.index <==>
              HasList(s) && (key == "j" || key == "ArrowDown") && s.index < |s.posts.value| - 1
    ensures r.index < s.index <==>
              HasList(s) && (key == "k" || key == "ArrowUp") && s.index > 0
    ensures Valid(s) ==> Valid(r)
  {
    if !HasList(s) then s
    else
      match KeyMove(key)
      case None => s
      case Some(m) => s.(index := Step(s.index, |s.posts.value|, m))
  }

  /** The keys of `keys` handled one after another. */
  function HandleKeys(s: State, keys: seq<string>): State
    decreases |keys|
  {
    if |keys| == 0 then s else HandleKeys(HandleKey(s, keys[0]), keys[1..])
  }

  /** Any sequence of key presses keeps the list and the selection
      invariant: with a list of N posts the index stays in [0, N-1]. */
  lemma {:induction false} HandleKeysValid(s: State, keys: seq<string>)
    requires Valid(s)
    ensures HandleKeys(s, keys).posts == s.posts
    ensures Valid(HandleKeys(s, keys))
    ensures HasList(s) ==> 0 <= HandleKeys(s, keys).index < |s.posts.value|
    decreases |keys|
  {
    if |keys| > 0 {
      HandleKeysValid(HandleKey(s, keys[0]), keys[1..]);
    }
  }

  /** Pressing `j` n times from a valid position reaches min(index + n, N - 1). */
  lemma {:induction false} ForwardRepeated(s: State, n: nat)
    requires Valid(s) && HasList(s)
    ensures HandleKeys(s, seq(n, _ => "j")).index ==
              if s.index + n < |s.posts.value| - 1 then s.index + n else |s.posts.value| - 1
    decreases n
  {
    if n > 0 {
      var keys := seq(n, _ => "j");
      assert keys[1..] == seq(n - 1, _ => "j");
      ForwardRepeated(HandleKey(s, "j"), n - 1);
    }
  }

  /** Pressing `k` n times from a valid position reaches max(index - n, 0). */
  lemma {:induction false} BackwardRepeated(s: State, n: nat)
    requires Valid(s) && HasList(s)
    ensures HandleKeys(s, seq(n, _ => "k")).index == if s.index - n > 0 then s.index - n else 0
    decreases n
  {
    if n > 0 {
      var keys := seq(n, _ => "k");
      assert keys[1..] == seq(n - 1, _ => "k");
      BackwardRepeated(HandleKey(s, "k"), n - 1);
    }
  }

  /** A key press nobody bound to a move, any number of times, changes nothing. */
  lemma {:induction false} UnboundKeysIgnored(s: State, keys: seq<string>)
    requires forall i :: 0 <= i < |keys| ==> KeyMove(keys[i]).None?
    ensures HandleKeys(s, keys) == s
    decreases |keys|
  {
    if |keys| > 0 {
      UnboundKeysIgnored(s, keys[1..]);
    }
  }

  /** Away from the edges a forward step is undone by a backward step, and
      the other way round. */
  lemma StepsAreInverse(s: State)
    requires Valid(s) && HasList(s)
    ensures s.index < |s.posts.value| - 1 ==> HandleKey(HandleKey(s, "j"), "k") == s
    ensures s.index > 0 ==> HandleKey(HandleKey(s, "k"), "j") == s
  {
  }

  /** A click on the list entry rendered at `position`: the code sets the
      index to that position without a range check. */
  function Click(s: State, position: nat): (r: State)
    ensures r.posts == s.posts
    ensures r.index == position
    ensures Valid(r) <==> !HasList(s) || position < |s.posts.value|
    ensures HasList(s) && position < |s.posts.value| ==> Selected(r) == Some(s.posts.value[position])
  {
    s.(index := position)
  }

  /** The reset effect run when a new list arrives: a non-empty list whose
      length the index has reached sends the index back to 0; a shorter
      index is kept, and an absent or empty list leaves it alone. */
  function UpdateList(s: State, posts: Option<seq<Post>>): (r: State)
    ensures r.posts == posts
    ensures !HasList(r) ==> r.index == s.index
    ensures HasList(r) ==> (r.index == s.index <==> s.index < |posts.value|)
    ensures HasList(r) && r.index != s.index ==> r.index == 0
    ensures s.index >= 0 ==> Valid(r)
  {
    if posts.Some? && |posts.value| > 0 && s.index >= |posts.value| then
      State(posts, 0)
    else
      State(posts, s.index)
  }

  /** Delivering the same list twice resets at most once. */
  lemma UpdateListIdempotent(s: State, posts: Option<seq<Post>>)
    ensures UpdateList(UpdateList(s, posts), posts) == UpdateList(s, posts)
  {
  }

  /** A list that shrinks past the selection resets it to the first post:
      [A, B, C, D] with D selected, then [A, B], selects A. */
  lemma ShrinkResetsToFirst(a: Post, b: Post, c: Post, d: Post)
    ensures var s := UpdateList(State(Some([a, b, c, d]), 3), Some([a, b]));
            s.index == 0 && Selected(s) == Some(a)
  {
  }

  /** The selection survives an empty list: an index of 3 is kept through an
      empty snapshot, and a following list of five posts selects the fourth. */
  lemma EmptyListKeepsIndex(p: seq<Post>)
    requires |p| == 5
    ensures var e := UpdateList(State(Some(p), 3), Some([]));
            Selected(e).None? && e.index == 3 && UpdateList(e, Some(p)).index == 3
  {
  }
}

=== FILE: prefetch.dfy ===
/** The detail queries `App` derives from the selection: one for the
    selected post and, to hide latency during sequential navigation, one
    each for the posts just before and just after it. Each query is keyed
    `["post_data", id]` and enabled only when its post exists. The query
    cache's freshness policy is not modelled; only the key, the enabled
    flag and the rows a query selects are. */
module Prefetch {
  import opened Wrappers
  import opened Schema
  import opened Navigator
  import Seqs
  import PostStore

  /** The table every detail query reads. */
  const DetailTable: string := "post_data"

  /** One detail query: the post id it filters `post_data` by (the empty
      string standing in for an absent post, as `post?.id || ""` does) and
      whether the query may run. */
  datatype DetailQuery = DetailQuery(postId: string, enabled: bool) {

    /** The cache key `["post_data", id]`. */
    function Key(): seq<string> {
      [DetailTable, postId]
    }
  }

  /** The detail queries for the previous, selected and next posts. */
  datatype Window = Window(previous: DetailQuery, selected: DetailQuery, next: DetailQuery)

  /** The query for a post that may be absent. */
  function QueryFor(p: Option<Post>): (q: DetailQuery)
    ensures q.enabled <==> p.Some?
    ensures p.Some? ==> q.Key() == [DetailTable, p.value.id]
    ensures p.None? ==> q.Key() == [DetailTable, ""]
  {
    DetailQuery(p.GetOr(Post("", "", "")).id, p.Some?)
  }

  /** The three queries derived from the selection by index lookup. */
  function PrefetchWindow(s: State): (w: Window)
    ensures w.selected.enabled <==> s.posts.Some? && 0 <= s.index < |s.posts.value|
    ensures w.previous.enabled <==> s.posts.Some? && 0 <= s.index - 1 < |s.posts.value|
    ensures w.next.enabled <==> s.posts.Some? && 0 <= s.index + 1 < |s.posts.value|
    ensures w.selected.enabled ==> w.selected.postId == s.posts.value[s.index].id
    ensures w.previous.enabled ==> w.previous.postId == s.posts.value[s.index - 1].id
    ensures w.next.enabled ==> w.next.postId == s.posts.value[s.index + 1].id
    ensures !HasList(s) ==> !w.previous.enabled && !w.selected.enabled && !w.next.enabled
  {
    Window(QueryFor(Lookup(s.posts, s.index - 1)),
           QueryFor(Selected(s)),
           QueryFor(Lookup(s.posts, s.index + 1)))
  }

  /** The post ids whose detail queries are enabled. */
  function Targets(w: Window): set<string> {
    (if w.previous.enabled then {w.previous.postId} else {})
    + (if w.selected.enabled then {w.selected.postId} else {})
    + (if w.next.enabled then {w.next.postId} else {})
  }

  /** The number of enabled detail queries. */
  function EnabledCount(w: Window): nat {
    (if w.previous.enabled then 1 else 0)
    + (if w.selected.enabled then 1 else 0)
    + (if w.next.enabled then 1 else 0)
  }

  /** With a valid selection the enabled queries are exactly those for the
      posts at positions index - 1, index and index + 1 that exist. */
  lemma WindowTargets(s: State)
    requires Valid(s) && HasList(s)
    ensures Targets(PrefetchWindow(s)) ==
              set j | 0 <= j < |s.posts.value| && s.index - 1 <= j <= s.index + 1 :: s.posts.value[j].id
  {
    var p := s.posts.value;
    var w := PrefetchWindow(s);
    var expected := set j | 0 <= j < |p| && s.index - 1 <= j <= s.index + 1 :: p[j].id;
    forall id | id in expected ensures id in Targets(w) {
      var j :| 0 <= j < |p| && s.index - 1 <= j <= s.index + 1 && p[j].id == id;
    }
    if w.previous.enabled {
      assert p[s.index - 1].id in expected;
    }
    if w.next.enabled {
      assert p[s.index + 1].id in expected;
    }
  }

  /** How many detail queries run: one for a single post, two at either end
      of a longer list, three in its interior, none without posts. */
  lemma WindowSize(s: State)
    requires Valid(s)
    ensures EnabledCount(PrefetchWindow(s)) ==
              if !HasList(s) then 0
              else if |s.posts.value| == 1 then 1
              else if s.index == 0 || s.index == |s.posts.value| - 1 then 2
              else 3
  {
  }

  /** When post ids are unique, the enabled queries have pairwise distinct
      cache keys, so three neighbours never share a cache entry. */
  lemma WindowKeysDistinct(s: State)
    requires Valid(s) && HasList(s)
    requires forall i, j :: 0 <= i < j < |s.posts.value| ==> s.posts.value[i].id != s.posts.value[j].id
    ensures var w := PrefetchWindow(s);
            && (w.previous.enabled ==> w.previous.Key() != w.selected.Key())
            && (w.next.enabled ==> w.next.Key() != w.selected.Key())
            && (w.previous.enabled && w.next.enabled ==> w.previous.Key() != w.next.Key())
  {
    var w := PrefetchWindow(s);
    assert w.previous.Key()[1] == w.previous.postId;
    assert w.selected.Key()[1] == w.selected.postId;
    assert w.next.Key()[1] == w.next.postId;
  }

  /** Walking forward through [A, B, C] from A: after one `j` all three
      posts are prefetched, after two only B and C, and a third `j` is
      ignored. */
  lemma WalkForwardThroughThree(a: Post, b: Post, c: Post)
    ensures var s0 := State(Some([a, b, c]), 0);
            var s1 := HandleKey(s0, "j");
            var s2 := HandleKey(s1, "j");
            && s1.index == 1 && Targets(PrefetchWindow(s1)) == {a.id, b.id, c.id}
            && s2.index == 2 && Targets(PrefetchWindow(s2)) == {b.id, c.id}
            && HandleKey(s2, "j") == s2
  {
  }

  /** The rows a detail query returns: nothing when it is disabled, and the
      `post_data` rows of its post, in storage order, when it runs. */
  function FetchDetail(store: Store, q: DetailQuery): (r: Option<seq<PostData>>)
    ensures r.Some? <==> q.enabled
    ensures r.Some? ==> forall x :: x in r.value <==> x in store.data && x.postId == q.postId
    ensures r.Some? ==> forall x :: multiset(r.value)[x] == if x.postId == q.postId then multiset(store.data)[x] else 0
  {
    if q.enabled then Some(Seqs.Filter(store.data, DataOf(q.postId))) else None
  }

  /** Selecting a post just created under a fresh id runs its detail query,
      which returns exactly the eight attribute rows created with it. */
  lemma CreatedPostDetail(store: Store, form: PostStore.Form, postId: string, createdAt: string,
                          d: PostStore.Draws, rowIds: seq<string>)
    requires |rowIds| == 8 && PostStore.ValidDraws(d)
    requires !HasDataFor(store.data, postId)
    ensures var created := PostStore.CreatePost(store, form, postId, createdAt, d, rowIds).store;
            var s := Click(State(Some(created.posts), 0), |store.posts|);
            FetchDetail(created, PrefetchWindow(s).selected)
              == Some(PostStore.CreatePostData(postId, createdAt, d, rowIds))
  {
    var created := PostStore.CreatePost(store, form, postId, createdAt, d, rowIds).store;
    var rows := PostStore.CreatePostData(postId, createdAt, d, rowIds);
    var s := Click(State(Some(created.posts), 0), |store.posts|);
    assert PrefetchWindow(s).selected.postId == postId;
    PostStore.FilterDataFindsAppended(store.data, rows, postId);
  }
}

=== FILE: schema.dfy ===
/** The two local tables of the application, `post` and `post_data`, as
    immutable rows. Every column is text; the row id is the table's
    implicit `id` column. */
module Schema {

  /** A row of `post`. */
  datatype Post = Post(id: string, title: string, content: string)

  /** A row of `post_data`: one typed key/value attribute of the post whose
      id is `postId`. `dataType` is advisory text ("string", "datetime",
      "number", "json", "boolean") and is not enforced by the table. */
  datatype PostData = PostData(id: string, postId: string, key: string, value: string, dataType: string)

  /** Both tables, each in storage order. */
  datatype Store = Store(posts: seq<Post>, data: seq<PostData>)

  /** Some row of `post` has id `id`. */
  predicate HasPost(posts: seq<Post>, id: string) {
    exists i :: 0 <= i < |posts| && posts[i].id == id
  }

  /** Some row of `post_data` belongs to the post with id `id`. */
  predicate HasDataFor(data: seq<PostData>, id: string) {
    exists i :: 0 <= i < |data| && data[i].postId == id
  }

  /** No attribute row is orphaned: each one refers to a post that exists. */
  predicate WellLinked(s: Store) {
    forall i :: 0 <= i < |s.data| ==> HasPost(s.posts, s.data[i].postId)
  }

  /** The test `post_id = id` of a detail query. */
  function DataOf(id: string): (keep: PostData -> bool)
    ensures forall x :: keep(x) <==> x.postId == id
  {
    (x: PostData) => x.postId == id
  }

  /** The test `post_id != id` that a delete of the post's attribute rows keeps. */
  function DataNotOf(id: string): (keep: PostData -> bool)
    ensures forall x :: keep(x) <==> x.postId != id
  {
    (x: PostData) => x.postId != id
  }

  /** The test `p.id != id` that a delete of the post row keeps. */
  function PostNot(id: string): (keep: Post -> bool)
    ensures forall p :: keep(p) <==> p.id != id
  {
    (p: Post) => p.id != id
  }
}

=== FILE: seqs.dfy ===
/** Order-preserving filtering of table rows, the operation behind every
    `where` clause the application sends to the database
    (`delete ... where post_id = id`, `select ... where post_id = id`). */
module Seqs {

  /** The rows of `s` that satisfy `keep`, in their original order. */
  function Filter<T(==,!new)>(s: seq<T>, keep: T -> bool): (r: seq<T>)
    ensures |r| <= |s|
    ensures forall x :: x in r <==> x in s && keep(x)
    ensures forall x :: keep(x) ==> multiset(r)[x] == multiset(s)[x]
    ensures forall x :: !keep(x) ==> multiset(r)[x] == 0
  {
    if |s| == 0 then []
    else
      var rest := Filter(s[1..], keep);
      assert s == [s[0]] + s[1..];
      assert multiset(s) == multiset{s[0]} + multiset(s[1..]);
      if keep(s[0]) then
        assert multiset([s[0]] + rest) == multiset{s[0]} + multiset(rest);
        [s[0]] + rest
      else rest
  }

  /** Filtering distributes over concatenation: a table that grew by appending
      rows is filtered as its old part followed by its new part. */
  lemma {:induction false} FilterAppend<T(!new)>(a: seq<T>, b: seq<T>, keep: T -> bool)
    ensures Filter(a + b, keep) == Filter(a, keep) + Filter(b, keep)
  {
    if |a| == 0 {
      assert a + b == b;
    } else {
      assert (a + b)[1..] == a[1..] + b;
      FilterAppend(a[1..], b, keep);
    }
  }

  /** Filtering keeps a sequence whose every element passes unchanged. */
  lemma {:induction false} FilterAllKept<T(!new)>(s: seq<T>, keep: T -> bool)
    requires forall i :: 0 <= i < |s| ==> keep(s[i])
    ensures Filter(s, keep) == s
  {
    if |s| > 0 {
      FilterAllKept(s[1..], keep);
      assert s == [s[0]] + s[1..];
    }
  }

  /** Filtering empties a sequence whose every element fails. */
  lemma {:induction false} FilterNoneKept<T(!new)>(s: seq<T>, keep: T -> bool)
    requires forall i :: 0 <= i < |s| ==> !keep(s[i])
    ensures Filter(s, keep) == []
  {
    if |s| > 0 {
      FilterNoneKept(s[1..], keep);
    }
  }

  /** Filtering twice with the same test changes nothing the second time. */
  lemma FilterIdempotent<T(!new)>(s: seq<T>, keep: T -> bool)
    ensures Filter(Filter(s, keep), keep) == Filter(s, keep)
  {
    var r := Filter(s, keep);
    assert forall i :: 0 <= i < |r| ==> keep(r[i]) by {
      forall i | 0 <= i < |r| ensures keep(r[i]) {
        assert r[i] in r;
      }
    }
    FilterAllKept(r, keep);
  }
}

=== FILE: store.dfy ===
/** The three mutations `App` issues against the `post` and `post_data`
    tables: create a post from the form, create its fixed batch of eight
    attribute rows, and delete a post with its attributes. Generated UUIDs,
    the ISO timestamp and the `Math.random()` draws are parameters. */
module PostStore {
  import opened Schema
  import opened Text
  import Seqs

  /** The title stored when the title field is blank. */
  const DefaultTitle: string := "Untitled Post"

  /** The content stored when the content field is blank. */
  const DefaultContent: string := "No content provided"

  /** The attribute keys of every new post, in insertion order. */
  const AttributeKeys: seq<string> :=
    ["author", "created_at", "status", "views", "tags", "priority", "category", "featured"]

  /** The declared type tag of each attribute key, position by position. */
  const AttributeTypes: seq<string> :=
    ["string", "datetime", "string", "number", "json", "number", "string", "boolean"]

  /** `JSON.stringify(["web", "tech", "tutorial"])`. */
  const TagsJson: string := "[\"web\",\"tech\",\"tutorial\"]"

  /** The two text fields of the create form. */
  datatype Form = Form(title: string, content: string)

  /** The three `Math.random()` results one attribute batch consumes, for
      the views count, the priority and the featured flag. */
  datatype Draws = Draws(views: real, priority: real, featured: real)

  /** Each draw lies in [0, 1), the range of `Math.random()`. */
  predicate ValidDraws(d: Draws) {
    && 0.0 <= d.views < 1.0
    && 0.0 <= d.priority < 1.0
    && 0.0 <= d.featured < 1.0
  }

  /** `Math.floor(r * 1000)`: a view count below 1000. */
  function Views(r: real): (v: nat)
    requires 0.0 <= r < 1.0
    ensures v < 1000
    ensures v as real <= r * 1000.0 < v as real + 1.0
  {
    (r * 1000.0).Floor
  }

  /** `Math.floor(r * 5 + 1)`: a priority from 1 to 5. */
  function Priority(r: real): (v: nat)
    requires 0.0 <= r < 1.0
    ensures 1 <= v <= 5
    ensures v as real <= r * 5.0 + 1.0 < v as real + 1.0
  {
    (r * 5.0 + 1.0).Floor
  }

  /** `r > 0.5 ? "true" : "false"`. */
  function Featured(r: real): (v: string)
    ensures v == "true" || v == "false"
    ensures v == "true" <==> r > 0.5
  {
    if r > 0.5 then "true" else "false"
  }

  /** A value matches its declared type tag: numbers are canonical decimal
      numerals, booleans are "true" or "false"; other tags admit any text. */
  predicate ConformsTo(value: string, dataType: string) {
    && (dataType == "number" ==> IsCanonicalDecimal(value))
    && (dataType == "boolean" ==> value == "true" || value == "false")
  }

  /** A field of the form as stored: the trimmed input, or `default` when
      the input is blank (`input.trim() || default`). */
  function Resolve(input: string, default: string): (r: string)
    ensures AllTrimmable(input) ==> r == default
    ensures !AllTrimmable(input) ==> |r| > 0 && IsTrimmed(r) && exists lo :: TrimmedAt(input, r, lo)
  {
    var t := Trim(input);
    if |t| == 0 then default else t
  }

  /** The stored title and content are never empty and never padded. */
  lemma ResolvedFieldsTrimmed(form: Form)
    ensures |Resolve(form.title, DefaultTitle)| > 0 && IsTrimmed(Resolve(form.title, DefaultTitle))
    ensures |Resolve(form.content, DefaultContent)| > 0 && IsTrimmed(Resolve(form.content, DefaultContent))
  {
    assert IsTrimmed(DefaultTitle) by {
      assert DefaultTitle[0] == 'U' && DefaultTitle[|DefaultTitle| - 1] == 't';
    }
    assert IsTrimmed(DefaultContent) by {
      assert DefaultContent[0] == 'N' && DefaultContent[|DefaultContent| - 1] == 'd';
    }
  }

  /** `createPostData`: the batch of eight attribute rows for `postId`, the
      i-th with id `rowIds[i]`. */
  function CreatePostData(postId: string, createdAt: string, d: Draws, rowIds: seq<string>): (rows: seq<PostData>)
    requires |rowIds| == 8 && ValidDraws(d)
    ensures |rows| == |AttributeKeys| == 8
    ensures forall i :: 0 <= i < |rows| ==>
              && rows[i].id == rowIds[i]
              && rows[i].postId == postId
              && rows[i].key == AttributeKeys[i]
              && rows[i].dataType == AttributeTypes[i]
              && ConformsTo(rows[i].value, rows[i].dataType)
    ensures rows[0].value == "Admin User"
    ensures rows[1].value == createdAt
    ensures rows[2].value == "published"
    ensures IsCanonicalDecimal(rows[3].value) && DecimalValue(rows[3].value) == Views(d.views) < 1000
    ensures rows[4].value == TagsJson
    ensures IsCanonicalDecimal(rows[5].value) && DecimalValue(rows[5].value) == Priority(d.priority)
    ensures 1 <= DecimalValue(rows[5].value) <= 5
    ensures rows[6].value == "Technology"
    ensures rows[7].value == "true" <==> d.featured > 0.5
  {
    var values := ["Admin User", createdAt, "published", NatToDecimal(Views(d.views)), TagsJson,
                   NatToDecimal(Priority(d.priority)), "Technology", Featured(d.featured)];
    seq(8, i requires 0 <= i < 8 => PostData(rowIds[i], postId, AttributeKeys[i], values[i], AttributeTypes[i]))
  }

  /** `insertInto("post")`: appends one row. */
  function InsertPost(store: Store, p: Post): (r: Store)
    ensures r.posts == store.posts + [p] && r.data == store.data
    ensures WellLinked(store) ==> WellLinked(r)
  {
    var r := store.(posts := store.posts + [p]);
    assert forall i :: 0 <= i < |store.posts| ==> r.posts[i] == store.posts[i];
    r
  }

  /** `insertInto("post_data").values(rows)`: appends a batch of rows. */
  function InsertData(store: Store, rows: seq<PostData>): (r: Store)
    ensures r.posts == store.posts && r.data == store.data + rows
    ensures WellLinked(store) ==>
              ((forall i :: 0 <= i < |rows| ==> HasPost(store.posts, rows[i].postId)) <==> WellLinked(r))
  {
    var r := store.(data := store.data + rows);
    assert WellLinked(r) ==> forall i :: 0 <= i < |rows| ==> HasPost(store.posts, rows[i].postId) by {
      if WellLinked(r) {
        forall i | 0 <= i < |rows| ensures HasPost(store.posts, rows[i].postId) {
          assert r.data[|store.data| + i] == rows[i];
        }
      }
    }
    r
  }

  /** The store and the form after `createPost`. */
  datatype Created = Created(store: Store, form: Form)

  /** `createPost`: inserts the post with its resolved title and content,
      then its attribute batch, then clears both form fields. */
  function CreatePost(store: Store, form: Form, postId: string, createdAt: string, d: Draws, rowIds: seq<string>): (r: Created)
    requires |rowIds| == 8 && ValidDraws(d)
    ensures r.form == Form("", "")
    ensures r.store.posts == store.posts + [Post(postId, Resolve(form.title, DefaultTitle), Resolve(form.content, DefaultContent))]
    ensures r.store.data == store.data + CreatePostData(postId, createdAt, d, rowIds)
  {
    var p := Post(postId, Resolve(form.title, DefaultTitle), Resolve(form.content, DefaultContent));
    Created(InsertData(InsertPost(store, p), CreatePostData(postId, createdAt, d, rowIds)), Form("", ""))
  }

  /** Inserting a post and then attribute rows that all belong to it keeps
      the store well linked at both steps: the post goes in first. */
  lemma InsertPostThenDataKeepsLinks(store: Store, p: Post, rows: seq<PostData>)
    requires WellLinked(store)
    requires forall i :: 0 <= i < |rows| ==> rows[i].postId == p.id
    ensures WellLinked(InsertPost(store, p))
    ensures WellLinked(InsertData(InsertPost(store, p), rows))
  {
    var withPost := InsertPost(store, p);
    assert HasPost(withPost.posts, p.id) by {
      assert withPost.posts[|store.posts|] == p;
    }
  }

  /** Creating a post keeps the store well linked. */
  lemma CreatePostKeepsLinks(store: Store, form: Form, postId: string, createdAt: string, d: Draws, rowIds: seq<string>)
    requires |rowIds| == 8 && ValidDraws(d)
    requires WellLinked(store)
    ensures WellLinked(CreatePost(store, form, postId, createdAt, d, rowIds).store)
  {
    var p := Post(postId, Resolve(form.title, DefaultTitle), Resolve(form.content, DefaultContent));
    InsertPostThenDataKeepsLinks(store, p, CreatePostData(postId, createdAt, d, rowIds));
  }

  /** `deleteFrom("post_data").where("post_id", "=", id)`. */
  function DeletePostData(store: Store, id: string): (r: Store)
    ensures r.posts == store.posts
    ensures !HasDataFor(r.data, id)
    ensures forall x :: x in r.data <==> x in store.data && x.postId != id
    ensures forall x :: multiset(r.data)[x] == if x.postId != id then multiset(store.data)[x] else 0
    ensures WellLinked(store) ==> WellLinked(r)
  {
    var r := store.(data := Seqs.Filter(store.data, DataNotOf(id)));
    assert !HasDataFor(r.data, id) by {
      forall i | 0 <= i < |r.data| ensures r.data[i].postId != id {
        assert r.data[i] in r.data;
      }
    }
    assert WellLinked(store) ==> WellLinked(r) by {
      if WellLinked(store) {
        forall i | 0 <= i < |r.data| ensures HasPost(r.posts, r.data[i].postId) {
          assert r.data[i] in store.data;
        }
      }
    }
    r
  }

  /** `deleteFrom("post").where("id", "=", id)`. */
  function DeletePostRow(store: Store, id: string): (r: Store)
    ensures r.data == store.data
    ensures !HasPost(r.posts, id)
    ensures forall p :: p in r.posts <==> p in store.posts && p.id != id
    ensures forall p :: multiset(r.posts)[p] == if p.id != id then multiset(store.posts)[p] else 0
  {
    var r := store.(posts := Seqs.Filter(store.posts, PostNot(id)));
    assert !HasPost(r.posts, id) by {
      forall i | 0 <= i < |r.posts| ensures r.posts[i].id != id {
        assert r.posts[i] in r.posts;
      }
    }
    r
  }

  /** `deletePost`: removes the post's attribute rows, then the post. Every
      other row of either table survives with its multiplicity. */
  function DeletePost(store: Store, id: string): (r: Store)
    ensures !HasPost(r.posts, id) && !HasDataFor(r.data, id)
    ensures forall p: Post :: p.id != id ==> multiset(r.posts)[p] == multiset(store.posts)[p]
    ensures forall x: PostData :: x.postId != id ==> multiset(r.data)[x] == multiset(store.data)[x]
  {
    DeletePostRow(DeletePostData(store, id), id)
  }

  /** Neither the intermediate store, with the attribute rows gone and the
      post still present, nor the final one has an orphaned attribute row. */
  lemma DeletePostKeepsLinks(store: Store, id: string)
    requires WellLinked(store)
    ensures WellLinked(DeletePostData(store, id))
    ensures WellLinked(DeletePost(store, id))
  {
    var mid := DeletePostData(store, id);
    var r := DeletePost(store, id);
    forall i | 0 <= i < |r.data| ensures HasPost(r.posts, r.data[i].postId) {
      var x := r.data[i];
      assert x in mid.data;
      var k :| 0 <= k < |mid.posts| && mid.posts[k].id == x.postId;
      assert mid.posts[k] in r.posts;
    }
  }

  /** Deleting in the other order would orphan rows: once a post that still
      has attribute rows is removed first, the store is no longer well linked. */
  lemma PostFirstOrphansData(store: Store, id: string)
    requires HasDataFor(store.data, id)
    ensures !WellLinked(DeletePostRow(store, id))
  {
    var i :| 0 <= i < |store.data| && store.data[i].postId == id;
    var r := DeletePostRow(store, id);
    assert r.data[i].postId == id;
  }

  /** Deleting twice is deleting once. */
  lemma DeletePostIdempotent(store: Store, id: string)
    ensures DeletePost(DeletePost(store, id), id) == DeletePost(store, id)
  {
    var once := DeletePost(store, id);
    Seqs.FilterIdempotent(store.data, DataNotOf(id));
    Seqs.FilterIdempotent(store.posts, PostNot(id));
  }

  /** Filtering out the attribute rows of `id` from a table that grew by
      rows of `id` only, and had none before, gives the old table back. */
  lemma FilterDataUndoesAppend(data: seq<PostData>, rows: seq<PostData>, id: string)
    requires !HasDataFor(data, id)
    requires forall i :: 0 <= i < |rows| ==> rows[i].postId == id
    ensures Seqs.Filter(data + rows, DataNotOf(id)) == data
  {
    Seqs.FilterAppend(data, rows, DataNotOf(id));
    Seqs.FilterAllKept(data, DataNotOf(id));
    Seqs.FilterNoneKept(rows, DataNotOf(id));
  }

  /** Selecting the attribute rows of `id` from a table that grew by rows of
      `id` only, and had none before, gives exactly the new rows. */
  lemma FilterDataFindsAppended(data: seq<PostData>, rows: seq<PostData>, id: string)
    requires !HasDataFor(data, id)
    requires forall i :: 0 <= i < |rows| ==> rows[i].postId == id
    ensures Seqs.Filter(data + rows, DataOf(id)) == rows
  {
    Seqs.FilterAppend(data, rows, DataOf(id));
    Seqs.FilterNoneKept(data, DataOf(id));
    Seqs.FilterAllKept(rows, DataOf(id));
  }

  /** Filtering out the post `p.id` from a table that gained `p` last, and
      had no such post before, gives the old table back. */
  lemma FilterPostUndoesAppend(posts: seq<Post>, p: Post)
    requires !HasPost(posts, p.id)
    ensures Seqs.Filter(posts + [p], PostNot(p.id)) == posts
  {
    Seqs.FilterAppend(posts, [p], PostNot(p.id));
    Seqs.FilterAllKept(posts, PostNot(p.id));
    Seqs.FilterNoneKept([p], PostNot(p.id));
  }

  /** Deleting a post appended together with its attribute rows, under an id
      no row used before, restores both tables. */
  lemma DeleteUndoesInsert(store: Store, p: Post, rows: seq<PostData>)
    requires !HasPost(store.posts, p.id) && !HasDataFor(store.data, p.id)
    requires forall i :: 0 <= i < |rows| ==> rows[i].postId == p.id
    ensures DeletePost(InsertData(InsertPost(store, p), rows), p.id) == store
  {
    FilterDataUndoesAppend(store.data, rows, p.id);
    FilterPostUndoesAppend(store.posts, p);
  }

  /** Deleting a freshly created post restores the store: create then delete
      with an id no row uses yet is the identity on both tables. */
  lemma DeleteUndoesCreate(store: Store, form: Form, postId: string, createdAt: string, d: Draws, rowIds: seq<string>)
    requires |rowIds| == 8 && ValidDraws(d)
    requires !HasPost(store.posts, postId) && !HasDataFor(store.data, postId)
    ensures DeletePost(CreatePost(store, form, postId, createdAt, d, rowIds).store, postId) == store
  {
    var p := Post(postId, Resolve(form.title, DefaultTitle), Resolve(form.content, DefaultContent));
    DeleteUndoesInsert(store, p, CreatePostData(postId, createdAt, d, rowIds));
  }
}

=== FILE: text.dfy ===
/** The two pieces of string handling the application relies on:
    JavaScript's `String.prototype.trim`, applied to the title and content
    the user typed, and `Number.prototype.toString` on the non-negative
    integers stored as attribute values. */
module Text {

  /** The characters `trim` removes: ECMAScript's WhiteSpace (tab, vertical
      tab, form feed, zero-width no-break space and every Unicode "Zs" space
      separator) together with its LineTerminator characters. */
  predicate IsTrimmable(c: char) {
    || c == '\t' || c == '\n' || c == '\U{000B}' || c == '\U{000C}' || c == '\r'
    || c == ' ' || c == '\U{00A0}' || c == '\U{1680}'
    || ('\U{2000}' <= c <= '\U{200A}')
    || c == '\U{2028}' || c == '\U{2029}' || c == '\U{202F}' || c == '\U{205F}'
    || c == '\U{3000}' || c == '\U{FEFF}'
  }

  /** Every character of `s` is one `trim` removes (vacuously so for ""). */
  predicate AllTrimmable(s: string) {
    forall i :: 0 <= i < |s| ==> IsTrimmable(s[i])
  }

  /** `s` neither starts nor ends with a character `trim` removes. */
  predicate IsTrimmed(s: string) {
    |s| == 0 || (!IsTrimmable(s[0]) && !IsTrimmable(s[|s| - 1]))
  }

  /** `r` is what is left of `s` once the trimmable prefix s[..lo] and the
      trimmable suffix after position lo + |r| are cut away. */
  predicate TrimmedAt(s: string, r: string, lo: int) {
    && 0 <= lo <= lo + |r| <= |s|
    && s[lo..lo + |r|] == r
    && AllTrimmable(s[..lo])
    && AllTrimmable(s[lo + |r|..])
  }

  /** `t` is what is left of `s` after its leading trimmable characters are dropped. */
  predicate StartTrimmed(s: string, t: string) {
    && |t| <= |s| && t == s[|s| - |t|..]
    && AllTrimmable(s[..|s| - |t|])
    && (|t| == 0 || !IsTrimmable(t[0]))
  }

  /** `r` is what is left of `t` after its trailing trimmable characters are dropped. */
  predicate EndTrimmed(t: string, r: string) {
    && |r| <= |t| && r == t[..|r|]
    && AllTrimmable(t[|r|..])
    && (|r| == 0 || !IsTrimmable(r[|r| - 1]))
  }

  /** Drops the leading trimmable characters: the result is a suffix of `s`,
      everything dropped is trimmable, and it does not start with a
      trimmable character. */
  function TrimStart(s: string): (r: string)
    ensures StartTrimmed(s, r)
  {
    if |s| > 0 && IsTrimmable(s[0]) then
      var r := TrimStart(s[1..]);
      StartTrimmedCons(s, r);
      r
    else
      assert s[..0] == [];
      s
  }

  /** A trimmable first character extends the dropped prefix by one. */
  lemma StartTrimmedCons(s: string, r: string)
    requires |s| > 0 && IsTrimmable(s[0]) && StartTrimmed(s[1..], r)
    ensures StartTrimmed(s, r)
  {
    var k := |s| - |r|;
    assert s[..k] == [s[0]] + s[1..][..k - 1];
    AllTrimmableAppend([s[0]], s[1..][..k - 1]);
  }

  /** Drops the trailing trimmable characters: the result is a prefix of `s`,
      everything dropped is trimmable, and it does not end with a trimmable
      character. */
  function TrimEnd(s: string): (r: string)
    ensures EndTrimmed(s, r)
  {
    if |s| > 0 && IsTrimmable(s[|s| - 1]) then
      var r := TrimEnd(s[..|s| - 1]);
      EndTrimmedSnoc(s, r);
      r
    else
      assert s[|s|..] == [];
      s
  }

  /** A trimmable last character extends the dropped suffix by one. */
  lemma EndTrimmedSnoc(s: string, r: string)
    requires |s| > 0 && IsTrimmable(s[|s| - 1]) && EndTrimmed(s[..|s| - 1], r)
    ensures EndTrimmed(s, r)
  {
    assert s[|r|..] == s[..|s| - 1][|r|..] + [s[|s| - 1]];
    AllTrimmableAppend(s[..|s| - 1][|r|..], [s[|s| - 1]]);
  }

  /** `String.prototype.trim`: the result is the middle of `s` with all
      leading and trailing whitespace and line terminators removed; it is
      empty exactly when `s` consists of such characters only. */
  function Trim(s: string): (r: string)
    ensures IsTrimmed(r)
    ensures exists lo :: TrimmedAt(s, r, lo)
    ensures |r| == 0 <==> AllTrimmable(s)
  {
    var t := TrimStart(s);
    var r := TrimEnd(t);
    TrimmedEnds(t, r);
    TrimmedSlice(s, t, r);
    TrimmedEmpty(s, t, r);
    r
  }

  /** Trimming the start and then the end leaves no trimmable character at either end. */
  lemma TrimmedEnds(t: string, r: string)
    requires (|t| == 0 || !IsTrimmable(t[0])) && EndTrimmed(t, r)
    ensures IsTrimmed(r)
  {
    if |r| > 0 {
      assert r[0] == t[0];
    }
  }

  /** Trimming the start and then the end cuts away only trimmable characters. */
  lemma TrimmedSlice(s: string, t: string, r: string)
    requires StartTrimmed(s, t) && EndTrimmed(t, r)
    ensures TrimmedAt(s, r, |s| - |t|)
  {
    var lo := |s| - |t|;
    assert s[lo..lo + |r|] == r;
    assert s[lo + |r|..] == t[|r|..];
  }

  /** Trimming both ends leaves nothing exactly when every character is trimmable. */
  lemma TrimmedEmpty(s: string, t: string, r: string)
    requires StartTrimmed(s, t) && EndTrimmed(t, r)
    ensures |r| == 0 <==> AllTrimmable(s)
  {
    var lo := |s| - |t|;
    if |r| == 0 {
      assert t[|r|..] == t;
      assert s == s[..lo] + t;
      AllTrimmableAppend(s[..lo], t);
    } else {
      assert s[lo] == t[0];
      NotAllTrimmable(s, lo);
    }
  }

  /** A string with a non-trimmable character at some position is not all trimmable. */
  lemma NotAllTrimmable(s: string, k: int)
    requires 0 <= k < |s| && !IsTrimmable(s[k])
    ensures !AllTrimmable(s)
  {
  }

  /** A concatenation of trimmable strings is trimmable. */
  lemma AllTrimmableAppend(a: string, b: string)
    requires AllTrimmable(a) && AllTrimmable(b)
    ensures AllTrimmable(a + b)
  {
    forall i | 0 <= i < |a + b| ensures IsTrimmable((a + b)[i]) {
      if i >= |a| {
        assert (a + b)[i] == b[i - |a|];
      }
    }
  }

  /** Trimming a string that has no whitespace at either end returns it unchanged. */
  lemma TrimOfTrimmed(s: string)
    requires IsTrimmed(s)
    ensures Trim(s) == s
  {
    assert TrimStart(s) == s;
    assert TrimEnd(s) == s;
  }

  /** Trimming a trimmed string changes nothing. */
  lemma TrimIdempotent(s: string)
    ensures Trim(Trim(s)) == Trim(s)
  {
    TrimOfTrimmed(Trim(s));
  }

  /** The decimal digits '0'..'9'. */
  predicate IsDigit(c: char) {
    '0' <= c <= '9'
  }

  /** The value of a digit character. */
  function DigitValue(c: char): (d: nat)
    requires IsDigit(c)
    ensures d < 10
  {
    (c as int) - ('0' as int)
  }

  /** The digit character of a value below ten. */
  function DigitChar(d: nat): (c: char)
    requires d < 10
    ensures IsDigit(c) && DigitValue(c) == d
  {
    (('0' as int) + d) as char
  }

  /** The number a digit string denotes, most significant digit first (0 for the empty one). */
  function DecimalValue(s: string): nat
    requires forall i :: 0 <= i < |s| ==> IsDigit(s[i])
  {
    if |s| == 0 then 0
    else DecimalValue(s[..|s| - 1]) * 10 + DigitValue(s[|s| - 1])
  }

  /** A canonical decimal numeral: digits only, and no leading zero unless it is "0". */
  predicate IsCanonicalDecimal(s: string) {
    && |s| > 0
    && (forall i :: 0 <= i < |s| ==> IsDigit(s[i]))
    && (s[0] == '0' ==> |s| == 1)
  }

  /** `toString()` on a non-negative integer. */
  function NatToDecimal(n: nat): (s: string)
    ensures IsCanonicalDecimal(s)
    ensures DecimalValue(s) == n
  {
    if n < 10 then [DigitChar(n)]
    else
      var s := NatToDecimal(n / 10) + [DigitChar(n % 10)];
      assert s[..|s| - 1] == NatToDecimal(n / 10);
      s
  }
}

=== FILE: wrappers.dfy ===
/** The optional value used wherever the application reads something that may be
    `undefined`: the post list before the first query result, an out-of-range
    array lookup, a key that is not bound to a navigation move. */
module Wrappers {

  datatype Option<+T> = None | Some(value: T) {

    /** Returns the value in Some, or `default` when None. */
    function GetOr(default: T): T {
      match this
      case Some(v) => v
      case None => default
    }
  }
}
